=== FILE: README.md ===
# Airline support chatbot: conversation core in Dafny

This project models the deterministic logic inside an airline customer-support
chat assistant (a Streamlit app over a hosted language model). It covers:

- the **FAQ rendering** that turns the FAQ table into `Q: …\nA: …\n` blocks, or a fixed
  sentinel for an empty table (`Faq`);
- the **system instruction** template that embeds the behaviour rules and the FAQ text
  (`Prompt`);
- the **flat-file persistence** of rules, FAQ and usage log, over an abstract disk in which
  an absent file is `None` and whether an I/O call raises is an input (`Store`);
- the **airline gateways**: the request each builds and the `{"error": str(e)}` wrapping
  of any exception, over a small JSON datatype with Python truthiness (`Gateway`);
- the **chat turn**: the user message is appended, a window of at most six earlier
  messages is mapped to engine roles, and the engine's outcome decides whether an assistant
  message and a usage-log row follow (`Chat`);
- the **operation-confirmation form**: its field gating and how it reads the gateway's
  result (`OpForm`).

The chat engine, the network, the clock and file I/O failures are parameters. The engine's
outcome is `Answered(text, usage?) | Unreadable(usage?, msg) | QuotaExceeded | Failed(msg)`.
`Unreadable` is a response that arrived but whose `response.text` raised. The network's outcome is
`Replied(json) | Raised(msg)`. The timestamp is a string `now`. Read and write failures are
booleans.

Some behaviours of the code are easy to get wrong when reading it quickly:

- **Failed turns keep the question.** One might expect a failed turn to leave no unanswered
  user message in the history. In the code, the user message is appended before the engine
  call (app.py:163) and is kept on every failure path. `Chat.UnansweredQuestionStays`
  exhibits two consecutive user messages. It also shows the unanswered question being sent
  in the next turn's window.
- **A failed log write costs the answer.** `log_usage` runs inside the turn's `try` and
  before the answer is appended (app.py:185-193). If writing the log raises, the turn ends
  in the generic error branch with no assistant message. `Chat.Turn` models this with the
  `logError` input.
- **Usage can be logged without an answer.** The usage row is written (app.py:185-190)
  before `response.text` is read (app.py:192-193). If reading the text raises, the row stays
  in the log, but the history gains only the question. `Chat.LoggedWithoutAnswer` shows this.
- **Rules read back with translated newlines.** The rules file is read in text mode
  (utils.py:72-73), so a saved `"\r\n"` or lone `"\r"` loads as `"\n"`. The round trip is
  exact only for text without carriage returns.
- **Error objects with an empty text read as success.** One might expect a gateway failure
  to always carry a non-empty error string. The code returns `{"error": str(e)}`, which is
  `""` for an exception with no text. The form treats a falsy `error` value as success
  (app.py:106). So such an exception shows "sent" and appends the confirmation.
  `OpForm.ExceptionReportedIffMessage` states both directions.

## Model

| member | source | states |
|---|---|---|
| Faq.FormatFaq | utils.py:27-36 | The accumulation loop yields the sentinel for an empty table and otherwise exactly the in-order concatenation of the row blocks (reference `Blocks`) |
| Faq.BlocksAppend | utils.py:33-35 | Rendering maps concatenation of tables to concatenation of texts |
| Faq.AppendRow | utils.py:34-35 | Adding a row to a non-empty table extends the text by exactly that row's block; the earlier text is a prefix of the new one |
| Faq.BlockAt | utils.py:33-36 | Each row's `Q:/A:` block occurs verbatim at its offset; consecutive rows' blocks are adjacent and in row order |
| Faq.RowInText | utils.py:33-36 | Each row's block occurs in the rendered text at the row's offset, and the next row starts strictly later |
| Faq.SentinelIffEmpty | utils.py:29-31 | The text is the sentinel `FAQ 데이터가 없습니다.` if and only if the table is empty |
| Faq.CategoryIgnored | utils.py:35 | The category column never influences the text: tables agreeing on questions and answers render identically |
| Prompt.SystemInstruction | app.py:137-141 | The instruction holds the rules verbatim right after the fixed head, then the `FAQ:` line, then the FAQ text verbatim |
| Prompt.InstructionFrame | app.py:137-148 | The instruction begins with the fixed role and language lines and ends with the fixed numbered directives. Its length is exactly the two fixed ends, the rules, the `FAQ:` line and the FAQ text, so nothing else is added |
| Prompt.InstructionDeterminesInputs | app.py:137-141 | Given the rules' length, the instruction determines both the rules and the FAQ text |
| Prompt.RowInInstruction | app.py:139-141 | Every FAQ row's block occurs in the instruction, after the rules, in row order |
| Prompt.OneRowInInstruction | app.py:139-141 | For a one-row table, `Q: <question>\nA: <answer>` sits exactly where the FAQ text starts |
| Prompt.BaggageScenario | app.py:139-141 | For the one-row baggage table, the instruction contains `Q: 얼마나 가져갈 수 있나요?\nA: 23kg까지 가능합니다.` |
| Prompt.InstructionFromDisk | app.py:134-141 | The rerun's instruction embeds the loaded rules and the loaded FAQ text at their template positions |
| Prompt.SavedRulesReachInstruction | app.py:135-139 | Successfully saved rules appear in the next instruction with newlines translated, verbatim when they hold no carriage return. With no rules file the default rules appear; with no FAQ file the sentinel appears |
| Store.LoadFaqData | utils.py:13-21 | An absent or unreadable FAQ file yields the empty table; otherwise the stored rows |
| Store.GetFaqAsText | utils.py:27-31 | An absent or unreadable FAQ file yields the sentinel; otherwise the rendering of the stored rows |
| Store.LoadBotRules | utils.py:66-76 | The default text when the file is absent, the fixed error text when reading fails, otherwise the content as a text-mode read returns it: verbatim except that `\r\n` and lone `\r` become `\n` |
| Store.UniversalNewlines | utils.py:72-73 | A text-mode read leaves no carriage return, never lengthens the text, and leaves text without carriage returns unchanged |
| Store.ReadIsTwoReplaces | utils.py:72-73 | On every input, the text-mode read equals `s.replace("\r\n", "\n").replace("\r", "\n")`: each `\r\n` and each lone `\r` becomes `\n`, and every other character is kept in order |
| Store.CrLfReadsAsLf | utils.py:72-73 | Saved `a\r\nb` and `a\rb` both read back as `a\nb` |
| Store.FallbacksDistinct | utils.py:68-76 | The default rules and the read-error text differ |
| Store.SaveBotRules | utils.py:78-86 | Returns true exactly when the write succeeds; success leaves the file holding the text, failure leaves it unchanged |
| Store.SaveThenLoad | utils.py:66-86 | After a save that returned true, loading returns the saved text with newlines translated, exactly the saved text when it holds no carriage return; after a failed save, loading sees the old file |
| Store.LogUsage | utils.py:38-52 | Creating the log writes the header and the row; an existing log gains exactly the one row at its end with the old lines kept; a well-formed log stays well formed |
| Store.LogFromScratch | utils.py:49-52 | From no file, k calls leave one header followed by the k rows in call order |
| Store.LogAppendOnly | utils.py:51-52 | From an existing file, calls only append, one row per call, in order |
| Gateway.Lookup | app.py:106 | Dictionary lookup on a decoded object: missing exactly when no pair has the key; otherwise the value of the last pair with that key |
| Gateway.Complete | utils.py:108-112 | A decoded reply is returned unchanged; any exception becomes a one-key object whose `error` is the exception text |
| Gateway.OperationConfirmationRequest | utils.py:96-107 | A POST to the confirmation URL with keys flightDate, flightNumber, searchFlightId, email, requestBy in order. The inputs sit under their keys, `searchFlightId` is `"0"` and `requestBy` is the fixed sender name |
| Gateway.OperationConfirmationRoundTrip | utils.py:101-107 | The three inputs can be read back from the request |
| Gateway.PnrDetailRequest | utils.py:116-128 | A POST to the PNR URL whose body is exactly `{searchNumber: pnr}` and whose only header is the browser User-Agent |
| Gateway.FlightScheduleRequest | app.py:29-36 | A GET to `/API/Flight` with query keys departure, arrival, date, lang in order: the inputs, then `lang=ko` |
| Gateway.SendOperationConfirmation | utils.py:96-112 | A POST to the confirmation URL from which the three inputs can be read back. Returns the decoded reply unchanged, or on any exception exactly `{"error": <exception text>}`, never raising |
| Gateway.GetPnrDetail | utils.py:116-134 | A POST to the PNR URL carrying the code under `searchNumber`. Returns the decoded reply unchanged, or on any exception exactly `{"error": <exception text>}`, never raising |
| Gateway.GetFlightSchedule | app.py:20-41 | A GET carrying departure, arrival and date as query parameters. Returns the decoded reply unchanged, or on any exception exactly `{"error": <exception text>}`, never raising |
| Chat.ApiRole | app.py:178 | Role "user" stays "user"; every other role becomes "model" |
| Chat.ToApi | app.py:178-179 | The content is carried unchanged as the single part, under the mapped role |
| Chat.Window | app.py:170-179 | For n messages the window has length min(6, n-1). It is the suffix of the messages before the newest one, order preserved, each in engine form |
| Chat.HistoryForApi | app.py:170-179 | The slicing and mapping loop produces exactly the reference window |
| Chat.WindowExcludesNewest | app.py:172 | The window does not depend on the newest message |
| Chat.WindowForgetsOlder | app.py:174-175 | Only the last six earlier messages influence the window |
| Chat.Turn | app.py:157-200 | Without a key or a prompt nothing changes. Otherwise the user message is appended and the engine gets the instruction, the window and the prompt. The history grows by two exactly on a readable answer whose usage, if any, was logged, the second entry being the answer. The log changes exactly when a response with usage arrived and the write succeeded, readable or not, by one `log_usage` call. An unreadable response leaves only the question and shows its error. Quota shows the fixed warning. Any other failure, and a failed log write after an answer, shows the generic error line with that exception's text. The answer is shown only when it was appended |
| Chat.UnansweredQuestionStays | app.py:163-198 | After a quota failure and a second question, the unanswered question is followed directly by the next question, and it is the last entry of the second turn's window |
| Chat.LoggedWithoutAnswer | app.py:185-193 | A response with usage whose text cannot be read leaves a usage row as the log's last line, and the history gains only the question |
| Chat.RunCountsQuestions | app.py:158-163 | Over any run of turns, history is append-only and gains exactly one user message per submitted question |
| Chat.RunKeepsLogWellFormed | app.py:185-190 | Over any run of turns the usage log keeps one header followed by data rows only |
| OpForm.PressButton | app.py:89-90 | The button flips form visibility and leaves the history alone |
| OpForm.ReportsError | app.py:105-106 | The result reports an error exactly when it is an object with a truthy `error` value. The `result.get` test raises exactly when the result is truthy but not an object |
| OpForm.Confirmation | app.py:110 | The confirmation is an assistant message naming the e-mail address, then the flight number, then the date |
| OpForm.NoticeFor | app.py:104-111 | After a send, the form crashes exactly when the error check raises. It reports success exactly when the result reports no error. A failure shows the value stored under `error` |
| OpForm.Submit | app.py:92-114 | The gateway is called exactly when the form is shown, submitted and all three fields are non-empty, and with those fields. Otherwise nothing changes. The notice is decided by the gateway's result alone. The confirmation is appended and the form closed exactly when the result reports no error |
| OpForm.ExceptionReportedIffMessage | app.py:104-110 | A gateway exception is shown as a failure exactly when its text is non-empty, and as a successful send exactly when it is empty |

## Left out

- Streamlit rendering, widgets, spinners, `st.rerun`, the history replay (app.py:124-126) and the quick links: user interface.
- The `st.cache_data` caching of the FAQ text (app.py:15-18): the model reads the FAQ file at every rerun, so it does not capture a stale cached FAQ text after an edit.
- The hosted model, `genai.configure`, `start_chat` and automatic function calling (app.py:131, 151-155, 181-182): an opaque external service. Its outcome is the `Chat.Reply` input. The two tool wrappers at app.py:43-61 only delegate to the utils.py gateways, which are modelled. The third tool, `get_flight_schedule` (app.py:20-41), builds and sends its own request and is modelled as `Gateway.GetFlightSchedule`.
- HTTP transport and JSON decoding: the network's outcome is the `Gateway.Transport` input. A decode failure is one of its `Raised` cases.
- Gateway.Json: JSON numbers are integers; a floating-point reply is not modelled.
- `check_api_status` (utils.py:88-94): a timed network probe used only by the admin page.
- `save_faq_data` and `load_usage_data` (utils.py:23-25, 54-64), pandas CSV encoding, `pd.to_datetime` and `datetime.now`. These are library and clock behaviour; the timestamp is the `now` input. A FAQ save/load round trip depends on pandas quoting and NaN handling and is not stated.
- Store.LogUsage: log lines are the abstract `Header` and `Row`, not CSV text. An exception while creating the file is modelled only as the turn's `logError` input.
- Store.SaveBotRules: a failed write is assumed to leave the file unchanged. This is the case when `open` fails. A failure after `open(…, 'w')` has truncated the file is not modelled. The write stores the characters as given; a platform that translates `\n` on write is not modelled, and a later read translates any `\r` anyway.
- Faq.FormatFaq: cells are strings. A missing cell, which pandas renders as `nan`, is not modelled.
- Chat.Turn: `usage_metadata` truthiness is modelled as present or absent.
- admin.py: password check, tabs, cost estimate in floating point, token sums. These are UI code and floating-point arithmetic.
- The verify_*.py scripts: live network probes. Some call functions that utils.py does not define.

=== FILE: chat.dfy ===
/** One chat turn of app.py: the user message is appended to the history, the
    bounded window of earlier messages is built for the chat engine, and the
    engine's outcome decides whether an assistant message and a usage-log row
    follow. The engine itself is opaque: its outcome is an input. */
module Chat {
  import opened Common
  import Store

  /** A history entry; the program writes roles "user" and "assistant". */
  datatype Message = Message(role: string, content: string)

  /** A history entry as handed to the engine: a role and a list of parts. */
  datatype ApiMessage = ApiMessage(role: string, parts: seq<string>)

  /** At most this many earlier messages are sent with a turn (three exchanges). */
  const WindowSize: nat := 6

  /** The engine model the program talks to and logs usage under. */
  const ModelName: string := "gemini-2.5-flash"

  /** Engine role for a history role: "user" stays "user", anything else is "model". */
  function ApiRole(role: string): (r: string)
    ensures r == "user" <==> role == "user"
    ensures r != "user" ==> r == "model"
  {
    if role == "user" then "user" else "model"
  }

  /** A history entry in engine form: its content travels unchanged as the single part. */
  function ToApi(m: Message): (a: ApiMessage)
    ensures a.parts == [m.content]
    ensures a.role == ApiRole(m.role)
  {
    ApiMessage(ApiRole(m.role), [m.content])
  }

  /** Every entry of `ms` in engine form, order preserved. */
  function ToApiAll(ms: seq<Message>): (r: seq<ApiMessage>)
    ensures |r| == |ms|
    ensures forall k :: 0 <= k < |ms| ==> r[k] == ToApi(ms[k])
  {
    if |ms| == 0 then [] else ToApiAll(ms[..|ms| - 1]) + [ToApi(ms[|ms| - 1])]
  }

  /** Converting a slice of the history lines up with the history itself. */
  lemma ToApiSlice(messages: seq<Message>, lo: nat, hi: nat)
    requires lo <= hi <= |messages|
    ensures var w := ToApiAll(messages[lo..hi]);
            forall k :: 0 <= k < |w| ==> w[k] == ToApi(messages[lo + k])
  {
    var w := ToApiAll(messages[lo..hi]);
    forall k | 0 <= k < |w|
      ensures w[k] == ToApi(messages[lo + k])
    {
      assert messages[lo..hi][k] == messages[lo + k];
    }
  }

  /** Reference definition of the window: the last `WindowSize` messages before
      the newest one, in engine form, order preserved. */
  function Window(messages: seq<Message>): (w: seq<ApiMessage>)
    ensures |messages| == 0 ==> |w| == 0
    ensures |messages| > 0 ==> |w| == if |messages| - 1 < WindowSize then |messages| - 1 else WindowSize
    ensures forall k :: 0 <= k < |w| ==> |w| - k < |messages| && w[k] == ToApi(messages[|messages| - 1 - |w| + k])
  {
    var past := LastN(DropLast(messages), WindowSize);
    LastBeforeFinal(messages, WindowSize);
    var w := ToApiAll(past);
    if |messages| == 0 then w
    else
      ToApiSlice(messages, |messages| - 1 - |past|, |messages| - 1);
      w
  }

  /** The loop that builds `history_for_api` from `messages[:-1]`, keeping only
      its last six entries: it produces exactly the reference window. */
  method HistoryForApi(messages: seq<Message>) returns (history: seq<ApiMessage>)
    ensures history == Window(messages)
  {
    var past := DropLast(messages);
    if |past| > WindowSize {
      past := past[|past| - WindowSize..];
    }
    history := [];
    var i := 0;
    while i < |past|
      invariant 0 <= i <= |past|
      invariant |history| == i
      invariant forall k :: 0 <= k < i ==> history[k] == ToApi(past[k])
    {
      history := history + [ToApi(past[i])];
      i := i + 1;
    }
  }

  /** The newest message never reaches the engine through the window: the window
      is the same whatever the newest message is. */
  lemma WindowExcludesNewest(earlier: seq<Message>, m: Message, m': Message)
    ensures Window(earlier + [m]) == Window(earlier + [m'])
  {
    assert DropLast(earlier + [m]) == earlier == DropLast(earlier + [m']);
  }

  /** However long the history, only the last six earlier messages matter. */
  lemma WindowForgetsOlder(earlier: seq<Message>, m: Message)
    requires |earlier| >= WindowSize
    ensures Window(earlier + [m]) == Window(earlier[|earlier| - WindowSize..] + [m])
  {
    var recent := earlier[|earlier| - WindowSize..];
    assert DropLast(earlier + [m]) == earlier;
    assert DropLast(recent + [m]) == recent;
  }

  /** Token counts reported with an engine answer. */
  datatype Usage = Usage(promptTokens: nat, candidateTokens: nat)

  /** What the engine call (`start_chat` then `send_message`, with any tool calls it
      makes on its own) ended in. */
  datatype Reply =
    | Answered(text: string, usage: Option<Usage>)
      // the response arrived, but reading `response.text` raised `message`
      // (for instance a candidate without a text part); usage is logged first
    | Unreadable(usage: Option<Usage>, message: string)
    | QuotaExceeded
    | Failed(message: string)

  /** The response arrived and carries usage metadata, so `log_usage` is called. */
  predicate CarriesUsage(reply: Reply)
  {
    (reply.Answered? || reply.Unreadable?) && reply.usage.Some?
  }

  /** What the program hands the engine: instruction, bounded history, the new text. */
  datatype EngineCall = EngineCall(instruction: string, history: seq<ApiMessage>, message: string)

  /** What the user sees for the turn. */
  datatype Notice = NoTurn | Shown(text: string) | ErrorShown(text: string)

  const QuotaWarning: string := "\U{26A0}\U{FE0F} API 사용량이 초과되었습니다 (Quota Exceeded). 잠시 후 다시 시도해주세요."

  /** The generic error line for an exception with text `e`. */
  function ErrorLine(e: string): string
  {
    "오류가 발생했습니다: " + e
  }

  /** State after a turn. */
  datatype TurnResult = TurnResult(messages: seq<Message>, usageLog: Option<seq<Store.LogLine>>,
                                   call: Option<EngineCall>, notice: Notice)

  /** The turn's usage-log row, stamped with `now`. */
  function Record(now: string, u: Usage): Store.UsageRecord
  {
    Store.UsageRecord(now, ModelName, u.promptTokens, u.candidateTokens)
  }

  /** One turn. `apiKey` and `prompt` are the sidebar key and the submitted chat
      input (empty when absent); `instruction` is the system instruction of this
      rerun; `reply` is the engine's outcome; `logError` is the text of the
      exception `log_usage` raises, if writing the log fails; `now` is the clock. */
  function Turn(messages: seq<Message>, usageLog: Option<seq<Store.LogLine>>, apiKey: string, prompt: string,
                instruction: string, reply: Reply, logError: Option<string>, now: string): (r: TurnResult)
    ensures apiKey == "" || prompt == "" ==>
              r.messages == messages && r.usageLog == usageLog && r.call == None && r.notice == NoTurn
    ensures apiKey != "" && prompt != "" ==>
              && messages + [Message("user", prompt)] <= r.messages
              && r.call == Some(EngineCall(instruction, Window(messages + [Message("user", prompt)]), prompt))
    ensures |r.messages| == |messages| + 2 <==>
              apiKey != "" && prompt != "" && reply.Answered? && (reply.usage.None? || logError.None?)
    ensures |r.messages| == |messages| + 2 ==>
              r.messages[|messages| + 1] == Message("assistant", reply.text) && r.notice == Shown(reply.text)
    ensures |r.messages| <= |messages| + 2
    ensures r.usageLog != usageLog <==>
              apiKey != "" && prompt != "" && CarriesUsage(reply) && logError.None?
    ensures r.usageLog != usageLog ==>
              r.usageLog == Some(Store.LogUsage(usageLog, Record(now, reply.usage.value)))
    ensures reply.QuotaExceeded? && apiKey != "" && prompt != "" ==> r.notice == ErrorShown(QuotaWarning)
    ensures reply.Failed? && apiKey != "" && prompt != "" ==> r.notice == ErrorShown(ErrorLine(reply.message))
    ensures reply.Answered? && reply.usage.Some? && logError.Some? && apiKey != "" && prompt != "" ==>
              r.notice == ErrorShown(ErrorLine(logError.value))
    ensures r.notice.Shown? ==> |r.messages| == |messages| + 2
    ensures reply.Unreadable? && apiKey != "" && prompt != "" ==>
              && r.messages == messages + [Message("user", prompt)]
              && r.notice == ErrorShown(ErrorLine(if reply.usage.Some? && logError.Some? then logError.value
                                                  else reply.message))
  {
    if apiKey == "" || prompt == "" then
      TurnResult(messages, usageLog, None, NoTurn)
    else
      var asked := messages + [Message("user", prompt)];
      var call := Some(EngineCall(instruction, Window(asked), prompt));
      assert |asked| == |messages| + 1 && messages + [Message("user", prompt)] <= asked;
      match reply
      case QuotaExceeded => TurnResult(asked, usageLog, call, ErrorShown(QuotaWarning))
      case Failed(e) => TurnResult(asked, usageLog, call, ErrorShown(ErrorLine(e)))
      case Unreadable(usage, e) =>
        (match usage
         case None => TurnResult(asked, usageLog, call, ErrorShown(ErrorLine(e)))
         case Some(u) =>
           match logError
           case Some(le) => TurnResult(asked, usageLog, call, ErrorShown(ErrorLine(le)))
           case None =>
             var logged := Store.LogUsage(usageLog, Record(now, u));
             assert Some(logged) != usageLog;
             TurnResult(asked, Some(logged), call, ErrorShown(ErrorLine(e))))
      case Answered(text, usage) =>
        match usage
        case None => TurnResult(asked + [Message("assistant", text)], usageLog, call, Shown(text))
        case Some(u) =>
          match logError
          case Some(e) => TurnResult(asked, usageLog, call, ErrorShown(ErrorLine(e)))
          case None =>
            var logged := Store.LogUsage(usageLog, Record(now, u));
            assert Some(logged) != usageLog;
            TurnResult(asked + [Message("assistant", text)], Some(logged), call, Shown(text))
  }

  /** A failed turn leaves its user message in the history: after a quota failure
      and a second question, the unanswered question is directly followed by the
      second one, and it travels last in the second turn's window as a user entry. */
  lemma UnansweredQuestionStays(messages: seq<Message>, log: Option<seq<Store.LogLine>>, apiKey: string,
                                p1: string, p2: string, instruction: string, reply: Reply, now: string)
    requires apiKey != "" && p1 != "" && p2 != ""
    ensures var first := Turn(messages, log, apiKey, p1, instruction, QuotaExceeded, None, now);
            var second := Turn(first.messages, first.usageLog, apiKey, p2, instruction, reply, None, now);
            var n := |second.messages|;
            && first.messages == messages + [Message("user", p1)]
            && second.messages[|messages|] == Message("user", p1)
            && second.messages[|messages| + 1] == Message("user", p2)
            && second.call.Some?
            && var w := second.call.value.history;
               |w| > 0 && w[|w| - 1] == ApiMessage("user", [p1])
  {
    var first := Turn(messages, log, apiKey, p1, instruction, QuotaExceeded, None, now);
    var asked := first.messages + [Message("user", p2)];
    assert asked[|asked| - 2] == Message("user", p1);
  }

  /** Logging and answering are separate steps: a response with usage metadata
      whose text cannot be read leaves a usage row in the log but no answer in
      the history, only the question. */
  lemma LoggedWithoutAnswer(messages: seq<Message>, log: Option<seq<Store.LogLine>>, apiKey: string,
                            prompt: string, instruction: string, u: Usage, e: string, now: string)
    requires apiKey != "" && prompt != ""
    ensures var r := Turn(messages, log, apiKey, prompt, instruction, Unreadable(Some(u), e), None, now);
            && r.usageLog != log
            && r.messages == messages + [Message("user", prompt)]
            && r.usageLog.Some? && r.usageLog.value[|r.usageLog.value| - 1] == Store.Row(Record(now, u))
  {
  }

  /** One turn's inputs, for a run of consecutive turns with the same key. */
  datatype TurnInput = TurnInput(prompt: string, instruction: string, reply: Reply, logError: Option<string>, now: string)

  /** History and usage log after the turns `inputs`, in order. */
  function Run(messages: seq<Message>, log: Option<seq<Store.LogLine>>, apiKey: string, inputs: seq<TurnInput>)
    : (seq<Message>, Option<seq<Store.LogLine>>)
  {
    if |inputs| == 0 then (messages, log)
    else
      var (ms, lg) := Run(messages, log, apiKey, inputs[..|inputs| - 1]);
      var t := inputs[|inputs| - 1];
      var r := Turn(ms, lg, apiKey, t.prompt, t.instruction, t.reply, t.logError, t.now);
      (r.messages, r.usageLog)
  }

  /** Number of messages with role "user". */
  function CountUser(ms: seq<Message>): nat
  {
    if |ms| == 0 then 0 else CountUser(ms[..|ms| - 1]) + (if ms[|ms| - 1].role == "user" then 1 else 0)
  }

  /** Number of turns whose chat input was non-empty. */
  function Submitted(inputs: seq<TurnInput>): nat
  {
    if |inputs| == 0 then 0 else Submitted(inputs[..|inputs| - 1]) + (if inputs[|inputs| - 1].prompt != "" then 1 else 0)
  }

  /** Over any run with an API key, history only grows, and every submitted
      question leaves exactly one user message, whatever the engine answered. */
  lemma {:induction false} RunCountsQuestions(messages: seq<Message>, log: Option<seq<Store.LogLine>>,
                                              apiKey: string, inputs: seq<TurnInput>)
    requires apiKey != ""
    ensures messages <= Run(messages, log, apiKey, inputs).0
    ensures CountUser(Run(messages, log, apiKey, inputs).0) == CountUser(messages) + Submitted(inputs)
    decreases |inputs|
  {
    if |inputs| > 0 {
      var prefix := inputs[..|inputs| - 1];
      RunCountsQuestions(messages, log, apiKey, prefix);
      var (ms, lg) := Run(messages, log, apiKey, prefix);
      var t := inputs[|inputs| - 1];
      var r := Turn(ms, lg, apiKey, t.prompt, t.instruction, t.reply, t.logError, t.now);
      if t.prompt != "" {
        var asked := ms + [Message("user", t.prompt)];
        assert asked[..|ms|] == ms;
        if |r.messages| == |ms| + 2 {
          assert r.messages == asked + [Message("assistant", t.reply.text)];
          assert r.messages[..|asked|] == asked;
        } else {
          assert r.messages == asked;
        }
      }
    }
  }

  /** A run keeps the usage log well formed: one header, then data rows only. */
  lemma {:induction false} RunKeepsLogWellFormed(messages: seq<Message>, log: Option<seq<Store.LogLine>>,
                                                 apiKey: string, inputs: seq<TurnInput>)
    requires log.None? || Store.WellFormedLog(log.value)
    ensures var lg := Run(messages, log, apiKey, inputs).1;
            lg.None? || Store.WellFormedLog(lg.value)
    decreases |inputs|
  {
    if |inputs| > 0 {
      RunKeepsLogWellFormed(messages, log, apiKey, inputs[..|inputs| - 1]);
    }
  }
}

=== FILE: common.dfy ===
/** Small helpers shared by every module of the model. */
module Common {

  /** An optional value: `None` stands for a file that does not exist or a
      dictionary key that is missing. */
  datatype Option<+T> = None | Some(value: T)

  /** The last `n` elements of `s`, or all of `s` when it is shorter: Python's
      `s[-n:]` guarded by `len(s) > n`. */
  function LastN<T>(s: seq<T>, n: nat): (r: seq<T>)
    ensures |r| == if |s| < n then |s| else n
    ensures forall k :: 0 <= k < |r| ==> r[k] == s[|s| - |r| + k]
  {
    if |s| > n then s[|s| - n..] else s
  }

  /** All but the last element: Python's `s[:-1]`, which is empty for an
      empty list rather than an error. */
  function DropLast<T>(s: seq<T>): (r: seq<T>)
    ensures |s| > 0 ==> |r| == |s| - 1
    ensures |s| == 0 ==> r == []
    ensures r <= s
  {
    if |s| == 0 then [] else s[..|s| - 1]
  }

  /** `s[:-1][-n:]` is one slice of `s`: the last `n` elements before the final one. */
  lemma LastBeforeFinal<T>(s: seq<T>, n: nat)
    ensures var p := LastN(DropLast(s), n);
            |s| > 0 ==> |p| < |s| && p == s[|s| - 1 - |p|..|s| - 1]
  {
    if |s| > 0 {
      var d := DropLast(s);
      assert d == s[..|s| - 1];
      if |d| > n {
        assert LastN(d, n) == d[|d| - n..];
      }
    }
  }

  /** `needle` occurs in `s` starting at index `k`. */
  predicate OccursAt<T(==)>(s: seq<T>, needle: seq<T>, k: nat)
  {
    k + |needle| <= |s| && s[k..k + |needle|] == needle
  }

  /** An occurrence inside a slice is an occurrence in the whole sequence,
      shifted by the slice's start. */
  lemma OccursInSlice<T>(s: seq<T>, lo: nat, hi: nat, needle: seq<T>, k: nat)
    requires lo <= hi <= |s|
    requires OccursAt(s[lo..hi], needle, k)
    ensures OccursAt(s, needle, lo + k)
  {
    forall j | 0 <= j < |needle|
      ensures s[lo + k + j] == needle[j]
    {
      assert s[lo..hi][k..k + |needle|][j] == needle[j];
    }
  }

  /** An occurrence inside an occurrence: if `inner` sits at `p` in `s` and
      `needle` sits at `k` in `inner`, then `needle` sits at `p + k` in `s`. */
  lemma OccursWithin<T>(s: seq<T>, inner: seq<T>, p: nat, needle: seq<T>, k: nat)
    requires OccursAt(s, inner, p)
    requires OccursAt(inner, needle, k)
    ensures OccursAt(s, needle, p + k)
  {
    OccursInSlice(s, p, p + |inner|, needle, k);
  }

  /** Where each part of a five-part concatenation sits. */
  lemma ConcatParts<T>(a: seq<T>, b: seq<T>, c: seq<T>, d: seq<T>, e: seq<T>)
    ensures var s := a + b + c + d + e;
            && |s| == |a| + |b| + |c| + |d| + |e|
            && OccursAt(s, a, 0)
            && OccursAt(s, b, |a|)
            && OccursAt(s, c, |a| + |b|)
            && OccursAt(s, d, |a| + |b| + |c|)
            && OccursAt(s, e, |a| + |b| + |c| + |d|)
  {
    var s := a + b + c + d + e;
    assert s[..|a|] == a;
    assert s[|a|..|a| + |b|] == b;
    assert s[|a| + |b|..|a| + |b| + |c|] == c;
    assert s[|a| + |b| + |c|..|a| + |b| + |c| + |d|] == d;
    assert s[|a| + |b| + |c| + |d|..] == e;
  }

  /** A prefix of an occurrence is an occurrence at the same place. */
  lemma OccursPrefix<T>(s: seq<T>, needle: seq<T>, k: nat, n: nat)
    requires OccursAt(s, needle, k)
    requires n <= |needle|
    ensures OccursAt(s, needle[..n], k)
  {
    assert s[k..k + n] == s[k..k + |needle|][..n];
  }
}

=== FILE: faq.dfy ===
/** The FAQ corpus and its rendering into the text block that is embedded
    into the assistant's system instruction (utils.py, `get_faq_as_text`). */
module Faq {
  import opened Common

  /** One row of the FAQ table (columns category, question, answer). */
  datatype Entry = Entry(category: string, question: string, answer: string)

  /** What `get_faq_as_text` returns for an empty table. */
  const NoFaq: string := "FAQ 데이터가 없습니다."

  /** The text one row contributes: `Q: <question>\nA: <answer>\n`. */
  function Block(e: Entry): string
  {
    "Q: " + e.question + "\nA: " + e.answer + "\n"
  }

  /** Reference definition: the blocks of all rows, concatenated in row order. */
  function Blocks(rows: seq<Entry>): string
  {
    if |rows| == 0 then "" else Blocks(rows[..|rows| - 1]) + Block(rows[|rows| - 1])
  }

  /** `get_faq_as_text` on an already loaded table. */
  function FaqText(rows: seq<Entry>): string
  {
    if |rows| == 0 then NoFaq else Blocks(rows)
  }

  /** The accumulation loop of `get_faq_as_text` (`faq_text += ...` per row):
      it computes exactly the reference rendering. */
  method FormatFaq(rows: seq<Entry>) returns (text: string)
    ensures text == FaqText(rows)
  {
    if |rows| == 0 {
      return NoFaq;
    }
    text := "";
    var i := 0;
    while i < |rows|
      invariant 0 <= i <= |rows|
      invariant text == Blocks(rows[..i])
    {
      assert rows[..i + 1][..i] == rows[..i];
      text := text + Block(rows[i]);
      i := i + 1;
    }
    assert rows[..|rows|] == rows;
  }

  /** Rendering is a homomorphism from row concatenation to string concatenation. */
  lemma {:induction false} BlocksAppend(a: seq<Entry>, b: seq<Entry>)
    ensures Blocks(a + b) == Blocks(a) + Blocks(b)
    decreases |b|
  {
    if |b| == 0 {
      assert a + b == a;
    } else {
      var b' := b[..|b| - 1];
      assert (a + b)[..|a + b| - 1] == a + b';
      assert (a + b)[|a + b| - 1] == b[|b| - 1];
      BlocksAppend(a, b');
    }
  }

  /** Adding one row to a non-empty table extends the rendered text by exactly
      that row's block; the earlier text is unchanged. */
  lemma AppendRow(rows: seq<Entry>, e: Entry)
    requires |rows| > 0
    ensures FaqText(rows + [e]) == FaqText(rows) + Block(e)
    ensures FaqText(rows) <= FaqText(rows + [e])
  {
    assert (rows + [e])[..|rows|] == rows;
  }

  /** Where row `i`'s block starts in the rendered text. */
  function Offset(rows: seq<Entry>, i: nat): nat
    requires i <= |rows|
  {
    |Blocks(rows[..i])|
  }

  /** Every row's block occurs verbatim in the rendering, at its offset, and the
      blocks follow one another in row order without gaps. */
  lemma BlockAt(rows: seq<Entry>, i: nat)
    requires i < |rows|
    ensures Offset(rows, i + 1) == Offset(rows, i) + |Block(rows[i])|
    ensures Offset(rows, i + 1) <= |Blocks(rows)|
    ensures Blocks(rows)[Offset(rows, i)..Offset(rows, i + 1)] == Block(rows[i])
  {
    assert rows[..i + 1][..i] == rows[..i];
    assert rows == rows[..i + 1] + rows[i + 1..];
    BlocksAppend(rows[..i + 1], rows[i + 1..]);
  }

  /** Row `i`'s block is found in the rendered text at the row's offset, and
      the next row's offset lies strictly past it. */
  lemma RowInText(rows: seq<Entry>, i: nat)
    requires i < |rows|
    ensures OccursAt(FaqText(rows), Block(rows[i]), Offset(rows, i))
    ensures Offset(rows, i) < Offset(rows, i + 1)
  {
    BlockAt(rows, i);
    assert FaqText(rows) == Blocks(rows);
  }

  /** The rendering is the empty-table sentinel exactly when the table is empty:
      a non-empty table renders to text that starts with "Q: ". */
  lemma SentinelIffEmpty(rows: seq<Entry>)
    ensures FaqText(rows) == NoFaq <==> |rows| == 0
  {
    if |rows| > 0 {
      BlockAt(rows, 0);
      assert rows[..0] == [];
      assert FaqText(rows)[0] == 'Q';
      assert NoFaq[0] == 'F';
    }
  }

  /** The category column never reaches the rendering: two tables with the same
      questions and answers row by row render identically. */
  lemma {:induction false} CategoryIgnored(a: seq<Entry>, b: seq<Entry>)
    requires |a| == |b|
    requires forall i :: 0 <= i < |a| ==> a[i].question == b[i].question && a[i].answer == b[i].answer
    ensures FaqText(a) == FaqText(b)
    decreases |a|
  {
    if |a| > 0 {
      CategoryIgnored(a[..|a| - 1], b[..|b| - 1]);
    }
  }
}

=== FILE: gateway.dfy ===
/** The three external airline endpoints (utils.py `send_operation_confirmation_api`,
    `get_pnr_detail_api`; app.py `get_flight_schedule`): the request each one
    builds, and how the reply or the raised exception becomes the returned value. */
module Gateway {
  import opened Common

  /** A decoded JSON value, as `response.json()` yields it. Objects keep their
      key/value pairs in document order. */
  datatype Json =
    | JNull
    | JBool(b: bool)
    | JNum(n: int)
    | JStr(s: string)
    | JArr(items: seq<Json>)
    | JObj(fields: seq<(string, Json)>)

  /** Python truthiness of the decoded value. */
  predicate Truthy(j: Json)
  {
    match j
    case JNull => false
    case JBool(b) => b
    case JNum(n) => n != 0
    case JStr(s) => |s| > 0
    case JArr(items) => |items| > 0
    case JObj(fields) => |fields| > 0
  }

  /** The value stored under `key` in a decoded object; with a repeated key
      the last occurrence wins, as when JSON text is decoded into a dict. */
  function Lookup(fields: seq<(string, Json)>, key: string): (r: Option<Json>)
    ensures r.None? <==> forall i :: 0 <= i < |fields| ==> fields[i].0 != key
    ensures r.Some? ==> exists i :: 0 <= i < |fields| && fields[i] == (key, r.value)
                                    && forall j :: i < j < |fields| ==> fields[j].0 != key
  {
    if |fields| == 0 then None
    else if fields[|fields| - 1].0 == key then Some(fields[|fields| - 1].1)
    else Lookup(fields[..|fields| - 1], key)
  }

  /** What every gateway returns in place of raising: `{"error": str(e)}`. */
  function ErrorResult(message: string): Json
  {
    JObj([("error", JStr(message))])
  }

  /** What the network did with a request: a decodable reply, or an exception
      (transport failure or undecodable body) carrying its `str(e)` text. */
  datatype Transport = Replied(body: Json) | Raised(message: string)

  /** The `try: return response.json() / except Exception as e: return {"error": str(e)}`
      shape shared by all three gateways: a reply is passed through unchanged,
      an exception becomes an object whose only key is "error". */
  function Complete(t: Transport): (r: Json)
    ensures t.Replied? ==> r == t.body
    ensures t.Raised? ==> r.JObj? && |r.fields| == 1 && Lookup(r.fields, "error") == Some(JStr(t.message))
  {
    match t
    case Replied(body) => body
    case Raised(message) => ErrorResult(message)
  }

  datatype HttpMethod = Get | Post

  /** An HTTP request: for GET `fields` are the query parameters, for POST the
      JSON body; all values are strings. */
  datatype Request = Request(verb: HttpMethod, url: string, fields: seq<(string, string)>, headers: seq<(string, string)>)

  /** The value under `key` in a list of string pairs (first occurrence). It is
      applied only to the request lists built below, whose keys are distinct, so
      the tie-break never matters there; decoded replies use `Lookup` instead. */
  function Find(pairs: seq<(string, string)>, key: string): (r: Option<string>)
    ensures r.None? <==> forall i :: 0 <= i < |pairs| ==> pairs[i].0 != key
    ensures r.Some? ==> exists i :: 0 <= i < |pairs| && pairs[i] == (key, r.value)
  {
    if |pairs| == 0 then None
    else if pairs[0].0 == key then Some(pairs[0].1)
    else Find(pairs[1..], key)
  }

  /** Looking up in a list that starts with `p`: `p`'s value if its key matches,
      otherwise whatever the rest of the list holds. */
  lemma FindCons(p: (string, string), rest: seq<(string, string)>)
    ensures forall key :: Find([p] + rest, key) == if p.0 == key then Some(p.1) else Find(rest, key)
  {
    assert ([p] + rest)[1..] == rest;
  }

  /** The keys of a list of pairs, in order. */
  function Keys(pairs: seq<(string, string)>): (ks: seq<string>)
    ensures |ks| == |pairs|
    ensures forall i :: 0 <= i < |pairs| ==> ks[i] == pairs[i].0
  {
    seq(|pairs|, i requires 0 <= i < |pairs| => pairs[i].0)
  }

  /** A four-pair list with distinct keys: its keys in order, and each key finds its value. */
  lemma FourPairs(k0: string, v0: string, k1: string, v1: string, k2: string, v2: string, k3: string, v3: string)
    requires k1 != k0
    requires k2 != k0 && k2 != k1
    requires k3 != k0 && k3 != k1 && k3 != k2
    ensures var pairs := [(k0, v0), (k1, v1), (k2, v2), (k3, v3)];
            && Keys(pairs) == [k0, k1, k2, k3]
            && Find(pairs, k0) == Some(v0) && Find(pairs, k1) == Some(v1)
            && Find(pairs, k2) == Some(v2) && Find(pairs, k3) == Some(v3)
  {
    var p3 := [(k3, v3)];
    var p2 := [(k2, v2)] + p3;
    var p1 := [(k1, v1)] + p2;
    FindCons((k3, v3), []);
    FindCons((k2, v2), p3);
    FindCons((k1, v1), p2);
    FindCons((k0, v0), p1);
    assert [(k0, v0)] + p1 == [(k0, v0), (k1, v1), (k2, v2), (k3, v3)];
  }

  /** A five-pair list with distinct keys: its keys in order, and each key finds its value. */
  lemma FivePairs(k0: string, v0: string, k1: string, v1: string, k2: string, v2: string,
                  k3: string, v3: string, k4: string, v4: string)
    requires k1 != k0
    requires k2 != k0 && k2 != k1
    requires k3 != k0 && k3 != k1 && k3 != k2
    requires k4 != k0 && k4 != k1 && k4 != k2 && k4 != k3
    ensures var pairs := [(k0, v0), (k1, v1), (k2, v2), (k3, v3), (k4, v4)];
            && Keys(pairs) == [k0, k1, k2, k3, k4]
            && Find(pairs, k0) == Some(v0) && Find(pairs, k1) == Some(v1) && Find(pairs, k2) == Some(v2)
            && Find(pairs, k3) == Some(v3) && Find(pairs, k4) == Some(v4)
  {
    var p4 := [(k4, v4)];
    var p3 := [(k3, v3)] + p4;
    var p2 := [(k2, v2)] + p3;
    var p1 := [(k1, v1)] + p2;
    FindCons((k4, v4), []);
    FindCons((k3, v3), p4);
    FindCons((k2, v2), p3);
    FindCons((k1, v1), p2);
    FindCons((k0, v0), p1);
    assert [(k0, v0)] + p1 == [(k0, v0), (k1, v1), (k2, v2), (k3, v3), (k4, v4)];
  }

  const FlightApiBaseUrl: string := "http://extapi.jinair.com"
  const OperationConfirmationUrl: string := "https://ccsstg.jinair.com/event/sendOperationConfirmation"
  const PnrDetailUrl: string := "https://ccs.jinair.com/event/getPnrDetail"

  /** Fixed sender name placed in every operation-confirmation request. */
  const RequestBy: string := "진에어 고객서비스센터"

  /** Browser identification sent with PNR lookups. */
  const BrowserAgent: string :=
    "Mozilla/5.0 (Windows NT 10.0; Win64; x64) AppleWebKit/537.36 (KHTML, like Gecko) Chrome/91.0.4472.124 Safari/537.36"

  /** The operation-confirmation POST: the three inputs under their keys, plus the
      fixed `searchFlightId` "0" and the fixed sender name; no extra headers. */
  function OperationConfirmationRequest(flightDate: string, flightNumber: string, email: string): (r: Request)
    ensures r.verb == Post && r.url == OperationConfirmationUrl && r.headers == []
    ensures Keys(r.fields) == ["flightDate", "flightNumber", "searchFlightId", "email", "requestBy"]
    ensures Find(r.fields, "flightDate") == Some(flightDate)
    ensures Find(r.fields, "flightNumber") == Some(flightNumber)
    ensures Find(r.fields, "searchFlightId") == Some("0")
    ensures Find(r.fields, "email") == Some(email)
    ensures Find(r.fields, "requestBy") == Some(RequestBy)
  {
    var body := [("flightDate", flightDate), ("flightNumber", flightNumber), ("searchFlightId", "0"),
                 ("email", email), ("requestBy", RequestBy)];
    FivePairs("flightDate", flightDate, "flightNumber", flightNumber, "searchFlightId", "0",
              "email", email, "requestBy", RequestBy);
    Request(Post, OperationConfirmationUrl, body, [])
  }

  /** The PNR-detail POST: exactly `{searchNumber: pnr}` with the browser User-Agent. */
  function PnrDetailRequest(pnr: string): (r: Request)
    ensures r.verb == Post && r.url == PnrDetailUrl
    ensures Keys(r.fields) == ["searchNumber"] && Find(r.fields, "searchNumber") == Some(pnr)
    ensures Keys(r.headers) == ["User-Agent"] && Find(r.headers, "User-Agent") == Some(BrowserAgent)
  {
    Request(Post, PnrDetailUrl, [("searchNumber", pnr)], [("User-Agent", BrowserAgent)])
  }

  /** The flight-schedule GET: the three inputs as query parameters plus `lang=ko`. */
  function FlightScheduleRequest(departure: string, arrival: string, date: string): (r: Request)
    ensures r.verb == Get && r.url == FlightApiBaseUrl + "/API/Flight" && r.headers == []
    ensures Keys(r.fields) == ["departure", "arrival", "date", "lang"]
    ensures Find(r.fields, "departure") == Some(departure)
    ensures Find(r.fields, "arrival") == Some(arrival)
    ensures Find(r.fields, "date") == Some(date)
    ensures Find(r.fields, "lang") == Some("ko")
  {
    var query := [("departure", departure), ("arrival", arrival), ("date", date), ("lang", "ko")];
    assert "date"[0] != "lang"[0];
    FourPairs("departure", departure, "arrival", arrival, "date", date, "lang", "ko");
    Request(Get, FlightApiBaseUrl + "/API/Flight", query, [])
  }

  /** A request together with the value the gateway function returned for it. */
  datatype Exchange = Exchange(request: Request, result: Json)

  /** Reads the three operation-confirmation inputs back out of a request, when
      it carries the fixed fields the gateway always sends. */
  function DecodeOperationConfirmation(r: Request): Option<(string, string, string)>
  {
    match (Find(r.fields, "flightDate"), Find(r.fields, "flightNumber"), Find(r.fields, "email"))
    case (Some(d), Some(n), Some(e)) =>
      if r.url == OperationConfirmationUrl && Find(r.fields, "searchFlightId") == Some("0")
         && Find(r.fields, "requestBy") == Some(RequestBy)
      then Some((d, n, e)) else None
    case _ => None
  }

  /** The operation-confirmation request carries its inputs recoverably. */
  lemma OperationConfirmationRoundTrip(flightDate: string, flightNumber: string, email: string)
    ensures DecodeOperationConfirmation(OperationConfirmationRequest(flightDate, flightNumber, email))
            == Some((flightDate, flightNumber, email))
  {
  }

  /** `send_operation_confirmation_api`: sends the three inputs recoverably and
      returns the decoded reply, or the error object in place of raising. */
  function SendOperationConfirmation(flightDate: string, flightNumber: string, email: string, t: Transport): (x: Exchange)
    ensures x.request == OperationConfirmationRequest(flightDate, flightNumber, email)
    ensures x.request.verb == Post && x.request.url == OperationConfirmationUrl
    ensures DecodeOperationConfirmation(x.request) == Some((flightDate, flightNumber, email))
    ensures t.Replied? ==> x.result == t.body
    ensures t.Raised? ==> x.result == ErrorResult(t.message)
    ensures t.Raised? ==> x.result.JObj? && Lookup(x.result.fields, "error") == Some(JStr(t.message))
  {
    Exchange(OperationConfirmationRequest(flightDate, flightNumber, email), Complete(t))
  }

  /** `get_pnr_detail_api`: sends the reservation code under `searchNumber` and
      returns the decoded reply, or the error object in place of raising. */
  function GetPnrDetail(pnr: string, t: Transport): (x: Exchange)
    ensures x.request == PnrDetailRequest(pnr)
    ensures x.request.verb == Post && x.request.url == PnrDetailUrl
    ensures Find(x.request.fields, "searchNumber") == Some(pnr)
    ensures t.Replied? ==> x.result == t.body
    ensures t.Raised? ==> x.result == ErrorResult(t.message)
    ensures t.Raised? ==> x.result.JObj? && Lookup(x.result.fields, "error") == Some(JStr(t.message))
  {
    Exchange(PnrDetailRequest(pnr), Complete(t))
  }

  /** `get_flight_schedule` (the engine-callable tool): sends the route and date
      as query parameters and returns the decoded reply, or the error object in
      place of raising. */
  function GetFlightSchedule(departure: string, arrival: string, date: string, t: Transport): (x: Exchange)
    ensures x.request == FlightScheduleRequest(departure, arrival, date)
    ensures x.request.verb == Get
    ensures Find(x.request.fields, "departure") == Some(departure)
    ensures Find(x.request.fields, "arrival") == Some(arrival)
    ensures Find(x.request.fields, "date") == Some(date)
    ensures t.Replied? ==> x.result == t.body
    ensures t.Raised? ==> x.result == ErrorResult(t.message)
    ensures t.Raised? ==> x.result.JObj? && Lookup(x.result.fields, "error") == Some(JStr(t.message))
  {
    Exchange(FlightScheduleRequest(departure, arrival, date), Complete(t))
  }
}

=== FILE: opform.dfy ===
/** The operation-confirmation form of app.py: a button toggles the form, and a
    submission with all three fields filled calls the gateway and, when the
    result does not report an error, appends a confirmation to the history and
    closes the form. */
module OpForm {
  import opened Common
  import Gateway
  import Chat

  /** The session state the form reads and writes. */
  datatype Session = Session(messages: seq<Chat.Message>, showForm: bool)

  /** What the user sees after a rerun of the form. */
  datatype FormNotice =
    | Hidden          // the form is not shown
    | Idle            // shown, not submitted
    | MissingFields   // submitted with an empty field: "모든 정보를 입력해주세요."
    | SendFailed(error: Gateway.Json)
    | Sent
    | Crashed         // `result.get` raised on a truthy reply that is not an object

  datatype FormResult = FormResult(session: Session, request: Option<Gateway.Request>, notice: FormNotice)

  /** The operation-confirmation button flips whether the form is shown. */
  function PressButton(s: Session): (s': Session)
    ensures s'.messages == s.messages
    ensures s'.showForm != s.showForm
  {
    s.(showForm := !s.showForm)
  }

  /** How the form reads the gateway's result (`if result and result.get("error")`):
      `Some(true)` when it reports an error, `Some(false)` when it does not, and
      `None` when the `result.get` test itself raises because the value is truthy but not an object. */
  function ReportsError(result: Gateway.Json): (r: Option<bool>)
    ensures r.None? <==> Gateway.Truthy(result) && !result.JObj?
    ensures r == Some(true) <==>
              result.JObj? && var e := Gateway.Lookup(result.fields, "error"); e.Some? && Gateway.Truthy(e.value)
  {
    if !Gateway.Truthy(result) then Some(false)
    else if !result.JObj? then None
    else match Gateway.Lookup(result.fields, "error")
      case None => Some(false)
      case Some(e) => Some(Gateway.Truthy(e))
  }

  /** The notice for a gateway result, once a request has been sent: a crash
      when the error check raises, the error value when it reports one, and a
      successful send otherwise. */
  function NoticeFor(result: Gateway.Json): (n: FormNotice)
    ensures n.Crashed? <==> ReportsError(result).None?
    ensures n.Sent? <==> ReportsError(result) == Some(false)
    ensures n.SendFailed? ==> result.JObj? && Some(n.error) == Gateway.Lookup(result.fields, "error")
    ensures n.Crashed? || n.Sent? || n.SendFailed?
  {
    match ReportsError(result)
    case None => Crashed
    case Some(true) => SendFailed(Gateway.Lookup(result.fields, "error").value)
    case Some(false) => Sent
  }

  /** Text of the confirmation before the e-mail address. */
  const ConfirmationLead: string := "운항정보 확인서를 "

  /** The history entry appended after a successful send: an assistant message
      naming the address, then the flight number, then the date. */
  function Confirmation(flightDate: string, flightNumber: string, email: string): (m: Chat.Message)
    ensures m.role == "assistant"
    ensures OccursAt(m.content, email, |ConfirmationLead|)
    ensures exists i, j :: |ConfirmationLead| + |email| <= i && i + |flightNumber| <= j
                           && OccursAt(m.content, flightNumber, i) && OccursAt(m.content, flightDate, j)
  {
    var mid1 := "로 발송했습니다. (편명: ";
    var mid2 := ", 날짜: ";
    var text := ConfirmationLead + email + mid1 + flightNumber + mid2 + flightDate + ")";
    var i := |ConfirmationLead| + |email| + |mid1|;
    var j := i + |flightNumber| + |mid2|;
    assert OccursAt(text, email, |ConfirmationLead|);
    assert OccursAt(text, flightNumber, i);
    assert OccursAt(text, flightDate, j);
    Chat.Message("assistant", text)
  }

  /** One rerun of the form. `t` is what the network did with the request, if one is sent. */
  function Submit(s: Session, submitted: bool, flightDate: string, flightNumber: string, email: string,
                  t: Gateway.Transport): (r: FormResult)
    ensures r.request.Some? <==> s.showForm && submitted && flightDate != "" && flightNumber != "" && email != ""
    ensures r.request.Some? ==> r.request.value == Gateway.OperationConfirmationRequest(flightDate, flightNumber, email)
    ensures r.request.None? ==> r.session == s
    ensures r.notice.Sent? <==> r.request.Some? && ReportsError(Gateway.Complete(t)) == Some(false)
    ensures r.notice.Sent? ==>
              r.session == Session(s.messages + [Confirmation(flightDate, flightNumber, email)], false)
    ensures !r.notice.Sent? ==> r.session == s
    ensures r.request.Some? ==> r.notice == NoticeFor(Gateway.Complete(t))
    ensures r.notice.MissingFields? <==>
              s.showForm && submitted && (flightDate == "" || flightNumber == "" || email == "")
  {
    if !s.showForm then FormResult(s, None, Hidden)
    else if !submitted then FormResult(s, None, Idle)
    else if flightDate == "" || flightNumber == "" || email == "" then FormResult(s, None, MissingFields)
    else
      var x := Gateway.SendOperationConfirmation(flightDate, flightNumber, email, t);
      var notice := NoticeFor(x.result);
      if notice.Sent? then
        FormResult(Session(s.messages + [Confirmation(flightDate, flightNumber, email)], false), Some(x.request), notice)
      else FormResult(s, Some(x.request), notice)
  }

  /** An exception in the gateway is reported as a failure exactly when its text is
      non-empty: `{"error": ""}` reads as "no error", so an exception with an empty
      message is shown as a successful send and the confirmation is appended. */
  lemma ExceptionReportedIffMessage(s: Session, flightDate: string, flightNumber: string, email: string, msg: string)
    requires s.showForm && flightDate != "" && flightNumber != "" && email != ""
    ensures var r := Submit(s, true, flightDate, flightNumber, email, Gateway.Raised(msg));
            && (r.notice == SendFailed(Gateway.JStr(msg)) <==> msg != "")
            && (r.notice.Sent? <==> msg == "")
  {
    var result := Gateway.Complete(Gateway.Raised(msg));
    assert Gateway.Lookup(result.fields, "error") == Some(Gateway.JStr(msg));
    assert NoticeFor(result) == if msg == "" then Sent else SendFailed(Gateway.JStr(msg));
  }
}

=== FILE: prompt.dfy ===
/** The system instruction handed to the chat engine at the start of every
    rerun (app.py, the template assigned to `system_instruction`). */
module Prompt {
  import Faq
  import Store
  import opened Common

  /** Template text before the rules blob. */
  const Head: string :=
    "Role: JinAir Agent. Lang: Korean.\n"
    + "    Instruction: 기본적으로 한국어로 답변하세요. 단, 사용자가 다른 언어로 질문하면 그 언어에 맞춰 답변하세요.\n"
    + "Rules: "

  /** Template text between the rules blob and the FAQ text. */
  const Mid: string := "\nFAQ:\n"

  /** Template text after the FAQ text: the fixed numbered directives. */
  const Tail: string :=
    "\nInstr:\n"
    + "1. Source: FAQ only. Else \"죄송합니다. 제공된 정보에는 해당 내용이 없습니다.\" (translated).\n"
    + "2. Flight Query: Use `get_flight_schedule`. Format: \"N flights. Fastest: [F] [T]. List: ...\" (translated)\n"
    + "3. Operation Confirmation: Ask for Date (YYYYMMDD), Flight Num, and Email. Use `send_operation_confirmation`.\n"
    + "4. PNR Lookup: Ask for 6-char PNR. Use `get_pnr_detail`. Summarize: Flight, Date, Passengers.\n"
    + "5. Be concise. Link URLs.\n"

  /** Where the FAQ text starts inside the instruction built from `rules`. */
  function FaqStart(rules: string): nat
  {
    |Head| + |rules| + |Mid|
  }

  /** A template with two holes: `rules` between `head` and `mid`, `faq` between
      `mid` and `tail`. */
  function Fill(head: string, rules: string, mid: string, faq: string, tail: string): (r: string)
    ensures OccursAt(r, rules, |head|)
    ensures OccursAt(r, mid, |head| + |rules|)
    ensures OccursAt(r, faq, |head| + |rules| + |mid|)
  {
    ConcatParts(head, rules, mid, faq, tail);
    head + rules + mid + faq + tail
  }

  /** The fixed parts of a filled template sit at its two ends. */
  lemma FillFrame(head: string, rules: string, mid: string, faq: string, tail: string)
    ensures var r := Fill(head, rules, mid, faq, tail);
            && |r| == |head| + |rules| + |mid| + |faq| + |tail|
            && OccursAt(r, head, 0)
            && OccursAt(r, tail, |head| + |rules| + |mid| + |faq|)
  {
    ConcatParts(head, rules, mid, faq, tail);
  }

  /** The instruction: the rules and the FAQ text are embedded verbatim, the
      rules first, then the `FAQ:` line, then the FAQ text. */
  function SystemInstruction(rules: string, faq: string): (r: string)
    ensures OccursAt(r, rules, |Head|)
    ensures |Head| + |rules| < FaqStart(rules)
    ensures OccursAt(r, Mid, |Head| + |rules|)
    ensures OccursAt(r, faq, FaqStart(rules))
  {
    Fill(Head, rules, Mid, faq, Tail)
  }

  /** The instruction starts with the fixed role and language lines and ends
      with the fixed numbered directives; nothing else surrounds the two texts. */
  lemma InstructionFrame(rules: string, faq: string)
    ensures var r := SystemInstruction(rules, faq);
            && |r| == FaqStart(rules) + |faq| + |Tail|
            && OccursAt(r, Head, 0)
            && OccursAt(r, Tail, FaqStart(rules) + |faq|)
  {
    FillFrame(Head, rules, Mid, faq, Tail);
  }

  /** Knowing how long the rules blob was, the instruction determines both the
      rules and the FAQ text it was built from. */
  lemma InstructionDeterminesInputs(r1: string, f1: string, r2: string, f2: string)
    requires |r1| == |r2|
    requires SystemInstruction(r1, f1) == SystemInstruction(r2, f2)
    ensures r1 == r2 && f1 == f2
  {
    var s := SystemInstruction(r1, f1);
    assert OccursAt(s, r1, |Head|) && OccursAt(s, r2, |Head|);
    assert OccursAt(s, f1, FaqStart(r1)) && OccursAt(s, f2, FaqStart(r2));
  }

  /** For a non-empty FAQ table, every row's `Q: ... A: ...` block appears in the
      instruction, in row order, after the rules. */
  lemma RowInInstruction(rules: string, rows: seq<Faq.Entry>, i: nat)
    requires i < |rows|
    ensures |Head| + |rules| < FaqStart(rules) + Faq.Offset(rows, i)
    ensures Faq.Offset(rows, i) < Faq.Offset(rows, i + 1)
    ensures OccursAt(SystemInstruction(rules, Faq.FaqText(rows)), Faq.Block(rows[i]),
                     FaqStart(rules) + Faq.Offset(rows, i))
  {
    var faq := Faq.FaqText(rows);
    Faq.RowInText(rows, i);
    OccursWithin(SystemInstruction(rules, faq), faq, FaqStart(rules), Faq.Block(rows[i]), Faq.Offset(rows, i));
  }

  /** For a one-row table, the row's question and answer appear in the
      instruction as `Q: <question>\nA: <answer>` right where the FAQ text starts. */
  lemma OneRowInInstruction(rules: string, e: Faq.Entry)
    ensures OccursAt(SystemInstruction(rules, Faq.FaqText([e])), "Q: " + e.question + "\nA: " + e.answer, FaqStart(rules))
  {
    var needle := "Q: " + e.question + "\nA: " + e.answer;
    RowInInstruction(rules, [e], 0);
    assert [e][..0] == [];
    assert Faq.Offset([e], 0) == 0;
    assert Faq.Block(e) == needle + "\n";
    assert (needle + "\n")[..|needle|] == needle;
    OccursPrefix(SystemInstruction(rules, Faq.FaqText([e])), Faq.Block(e), FaqStart(rules), |needle|);
  }

  /** The one-row baggage table: its question/answer pair appears in the
      instruction verbatim. */
  lemma BaggageScenario(rules: string)
    ensures var q, a := "얼마나 가져갈 수 있나요?", "23kg까지 가능합니다.";
            var s := SystemInstruction(rules, Faq.FaqText([Faq.Entry("baggage", q, a)]));
            exists k :: OccursAt(s, "Q: " + q + "\nA: " + a, k)
  {
    OneRowInInstruction(rules, Faq.Entry("baggage", "얼마나 가져갈 수 있나요?", "23kg까지 가능합니다."));
  }

  /** The instruction of one rerun, from the files as they are: the rules text
      `load_bot_rules` yields and the FAQ text `get_faq_as_text` yields. */
  function InstructionFromDisk(d: Store.Disk, faqReadOk: bool, rulesReadOk: bool): (r: string)
    ensures OccursAt(r, Store.LoadBotRules(d.rules, rulesReadOk), |Head|)
    ensures OccursAt(r, Store.GetFaqAsText(d.faq, faqReadOk), FaqStart(Store.LoadBotRules(d.rules, rulesReadOk)))
  {
    SystemInstruction(Store.LoadBotRules(d.rules, rulesReadOk), Store.GetFaqAsText(d.faq, faqReadOk))
  }

  /** Rules saved successfully appear in the next instruction built with a
      successful read, newlines translated (verbatim when they hold no carriage
      return); with no rules file the default rules appear instead, and with no
      FAQ file the empty-table sentinel appears. */
  lemma SavedRulesReachInstruction(d: Store.Disk, text: string, faqReadOk: bool)
    ensures var saved := Store.SaveBotRules(d.rules, text, true);
            OccursAt(InstructionFromDisk(d.(rules := saved.file), faqReadOk, true), Store.UniversalNewlines(text), |Head|)
    ensures var saved := Store.SaveBotRules(d.rules, text, true);
            '\r' !in text ==> OccursAt(InstructionFromDisk(d.(rules := saved.file), faqReadOk, true), text, |Head|)
    ensures d.rules.None? ==> forall ok :: OccursAt(InstructionFromDisk(d, faqReadOk, ok), Store.DefaultRules, |Head|)
    ensures d.faq.None? ==> forall ok :: OccursAt(InstructionFromDisk(d, faqReadOk, ok), Faq.NoFaq,
                                                  FaqStart(Store.LoadBotRules(d.rules, ok)))
  {
    Store.SaveThenLoad(d.rules, text, true);
  }
}

=== FILE: store.dfy ===
/** The flat-file persistence of utils.py: the FAQ table, the behaviour-rules
    text and the usage log, over an abstract disk. A file that does not exist
    is `None`; whether a read or write raises is an input of each operation. */
module Store {
  import opened Common
  import Faq

  /** One usage-log row (columns timestamp, model, prompt_tokens, candidate_tokens). */
  datatype UsageRecord = UsageRecord(timestamp: string, model: string, promptTokens: nat, candidateTokens: nat)

  /** A line of the usage-log CSV file: the column header or one data row. */
  datatype LogLine = Header | Row(record: UsageRecord)

  /** The three files the program keeps: faq.csv, bot_rules.txt, usage_log.csv. */
  datatype Disk = Disk(faq: Option<seq<Faq.Entry>>, rules: Option<string>, usageLog: Option<seq<LogLine>>)

  /** Rules returned when bot_rules.txt does not exist. */
  const DefaultRules: string := "친절하고 상냥하게 답변해주세요."

  /** Rules returned when bot_rules.txt exists but cannot be read. */
  const RulesReadError: string := "규칙을 불러오는 중 오류가 발생했습니다."

  /** `load_faq_data`: an absent or unreadable file yields the empty table. */
  function LoadFaqData(file: Option<seq<Faq.Entry>>, readOk: bool): (rows: seq<Faq.Entry>)
    ensures file.None? || !readOk ==> rows == []
    ensures file.Some? && readOk ==> rows == file.value
  {
    match file
    case None => []
    case Some(table) => if readOk then table else []
  }

  /** `get_faq_as_text`: the rendering of whatever `load_faq_data` yields, so an
      absent or unreadable file gives the empty-table sentinel. */
  function GetFaqAsText(file: Option<seq<Faq.Entry>>, readOk: bool): (text: string)
    ensures (file.None? || !readOk) ==> text == Faq.NoFaq
    ensures file.Some? && readOk ==> text == Faq.FaqText(file.value)
  {
    Faq.FaqText(LoadFaqData(file, readOk))
  }

  /** What a text-mode read returns for stored characters `s`: every "\r\n" and
      every lone "\r" becomes "\n"; all other characters are kept in order, so
      text without carriage returns reads back unchanged. */
  function UniversalNewlines(s: string): (r: string)
    ensures '\r' !in r
    ensures |r| <= |s|
    ensures '\r' !in s ==> r == s
    decreases |s|
  {
    if |s| == 0 then ""
    else if s[0] == '\r' then "\n" + UniversalNewlines(if |s| > 1 && s[1] == '\n' then s[2..] else s[1..])
    else
      assert '\r' !in s ==> '\r' !in s[1..] by {
        if '\r' in s[1..] {
          var k :| 0 <= k < |s[1..]| && s[1..][k] == '\r';
          assert s[k + 1] == '\r';
        }
      }
      assert s == [s[0]] + s[1..];
      [s[0]] + UniversalNewlines(s[1..])
  }

  /** First pass of the reference translation (`s.replace("\r\n", "\n")`): every
      carriage return that a line feed follows is dropped. */
  function DropCrBeforeLf(s: string): (r: string)
    ensures |r| <= |s|
    decreases |s|
  {
    if |s| == 0 then ""
    else if s[0] == '\r' && |s| > 1 && s[1] == '\n' then DropCrBeforeLf(s[1..])
    else [s[0]] + DropCrBeforeLf(s[1..])
  }

  /** Second pass of the reference translation (`.replace("\r", "\n")`): every
      remaining carriage return becomes a line feed, everything else is kept. */
  function CrToLf(s: string): (r: string)
    ensures |r| == |s|
    ensures forall i :: 0 <= i < |s| ==> r[i] == if s[i] == '\r' then '\n' else s[i]
  {
    seq(|s|, i requires 0 <= i < |s| => if s[i] == '\r' then '\n' else s[i])
  }

  /** The second pass works character by character from the front. */
  lemma CrToLfCons(c: char, t: string)
    ensures CrToLf([c] + t) == [if c == '\r' then '\n' else c] + CrToLf(t)
  {
    assert forall i :: 0 <= i < |t| ==> ([c] + t)[i + 1] == t[i];
  }

  /** The text-mode read agrees, on every input, with the two-pass replacement
      `s.replace("\r\n", "\n").replace("\r", "\n")`. */
  lemma {:induction false} ReadIsTwoReplaces(s: string)
    ensures UniversalNewlines(s) == CrToLf(DropCrBeforeLf(s))
    decreases |s|
  {
    if |s| == 0 {
      assert CrToLf("") == "";
    } else if s[0] == '\r' && |s| > 1 && s[1] == '\n' {
      ReadIsTwoReplaces(s[2..]);
      assert s[1..][1..] == s[2..];
      assert DropCrBeforeLf(s) == ['\n'] + DropCrBeforeLf(s[2..]);
      CrToLfCons('\n', DropCrBeforeLf(s[2..]));
    } else {
      ReadIsTwoReplaces(s[1..]);
      assert DropCrBeforeLf(s) == [s[0]] + DropCrBeforeLf(s[1..]);
      CrToLfCons(s[0], DropCrBeforeLf(s[1..]));
    }
  }

  /** A carriage-return line break reads back as a plain one. */
  lemma CrLfReadsAsLf()
    ensures UniversalNewlines("a\r\nb") == "a\nb"
    ensures UniversalNewlines("a\rb") == "a\nb"
  {
    assert "a\r\nb"[1..] == "\r\nb" && "\r\nb"[2..] == "b";
    assert "a\rb"[1..] == "\rb" && "\rb"[1..] == "b";
  }

  /** `load_bot_rules`: the default when the file is absent, a fixed error
      text when reading fails, otherwise the file's content as a text-mode
      read returns it (newlines translated). */
  function LoadBotRules(file: Option<string>, readOk: bool): (text: string)
    ensures file.None? ==> text == DefaultRules
    ensures file.Some? && !readOk ==> text == RulesReadError
    ensures file.Some? && readOk ==> text == UniversalNewlines(file.value)
    ensures file.Some? && readOk && '\r' !in file.value ==> text == file.value
  {
    match file
    case None => DefaultRules
    case Some(content) => if readOk then UniversalNewlines(content) else RulesReadError
  }

  /** The two fallback texts can be told apart from each other. */
  lemma FallbacksDistinct()
    ensures DefaultRules != RulesReadError
  {
    assert DefaultRules[0] != RulesReadError[0];
  }

  /** Result of `save_bot_rules`: the boolean it returns and the file afterwards. */
  datatype Saved = Saved(ok: bool, file: Option<string>)

  /** `save_bot_rules`: overwrite the file with `text` and report success, or
      report failure and leave the file as it was. */
  function SaveBotRules(file: Option<string>, text: string, writeOk: bool): (r: Saved)
    ensures r.ok == writeOk
    ensures r.ok ==> r.file == Some(text)
    ensures !r.ok ==> r.file == file
  {
    if writeOk then Saved(true, Some(text)) else Saved(false, file)
  }

  /** After a save that returned true, a successful load returns the saved text
      with its newlines translated, so exactly the saved text when it holds no
      carriage return, whatever the file held before; after a failed save,
      loading sees the old file. */
  lemma SaveThenLoad(file: Option<string>, text: string, writeOk: bool)
    ensures var r := SaveBotRules(file, text, writeOk);
            r.ok ==> LoadBotRules(r.file, true) == UniversalNewlines(text)
    ensures var r := SaveBotRules(file, text, writeOk);
            r.ok && '\r' !in text ==> LoadBotRules(r.file, true) == text
    ensures var r := SaveBotRules(file, text, writeOk);
            !r.ok ==> forall readOk :: LoadBotRules(r.file, readOk) == LoadBotRules(file, readOk)
  {
  }

  /** A usage log as the program writes it: one header line first, data rows after. */
  predicate WellFormedLog(lines: seq<LogLine>)
  {
    && |lines| >= 1
    && lines[0] == Header
    && forall i :: 1 <= i < |lines| ==> lines[i].Row?
  }

  /** `log_usage`: create the file with the header and the row when it does not
      exist, otherwise append the row alone. */
  function LogUsage(log: Option<seq<LogLine>>, rec: UsageRecord): (lines: seq<LogLine>)
    ensures log.None? ==> lines == [Header, Row(rec)]
    ensures log.Some? ==> |lines| == |log.value| + 1 && log.value <= lines && lines[|lines| - 1] == Row(rec)
    ensures (log.None? || WellFormedLog(log.value)) ==> WellFormedLog(lines)
  {
    match log
    case None => [Header, Row(rec)]
    case Some(prev) => prev + [Row(rec)]
  }

  /** The log after calling `log_usage` once per record, in order. */
  function LogAfter(log: Option<seq<LogLine>>, recs: seq<UsageRecord>): Option<seq<LogLine>>
  {
    if |recs| == 0 then log else Some(LogUsage(LogAfter(log, recs[..|recs| - 1]), recs[|recs| - 1]))
  }

  /** The data rows for `recs`, in order. */
  function Rows(recs: seq<UsageRecord>): (rows: seq<LogLine>)
    ensures |rows| == |recs|
    ensures forall i :: 0 <= i < |recs| ==> rows[i] == Row(recs[i])
  {
    seq(|recs|, i requires 0 <= i < |recs| => Row(recs[i]))
  }

  /** The rows of a longer record list extend the rows of its prefix by one. */
  lemma RowsSnoc(recs: seq<UsageRecord>)
    requires |recs| > 0
    ensures Rows(recs) == Rows(recs[..|recs| - 1]) + [Row(recs[|recs| - 1])]
  {
  }

  /** Starting from no file, k >= 1 calls leave exactly one header followed by the
      k rows in call order. */
  lemma {:induction false} LogFromScratch(recs: seq<UsageRecord>)
    requires |recs| > 0
    ensures LogAfter(None, recs) == Some([Header] + Rows(recs))
    decreases |recs|
  {
    var n := |recs|;
    var init := recs[..n - 1];
    var last := recs[n - 1];
    RowsSnoc(recs);
    if n == 1 {
      assert init == [];
      assert LogAfter(None, recs) == Some(LogUsage(None, last));
      assert [Header] + Rows(recs) == [Header, Row(last)];
    } else {
      LogFromScratch(init);
      var before := [Header] + Rows(init);
      assert LogAfter(None, recs) == Some(LogUsage(Some(before), last));
      assert LogUsage(Some(before), last) == before + [Row(last)];
      assert before + [Row(last)] == [Header] + (Rows(init) + [Row(last)]);
    }
  }

  /** Starting from an existing file, calls only ever append rows: the old content
      is kept and exactly one row per call follows it. */
  lemma {:induction false} LogAppendOnly(prev: seq<LogLine>, recs: seq<UsageRecord>)
    ensures LogAfter(Some(prev), recs) == Some(prev + Rows(recs))
    decreases |recs|
  {
    var n := |recs|;
    if n == 0 {
      assert prev + Rows(recs) == prev;
    } else {
      LogAppendOnly(prev, recs[..n - 1]);
      RowsSnoc(recs);
      var before := prev + Rows(recs[..n - 1]);
      assert LogAfter(Some(prev), recs) == Some(LogUsage(Some(before), recs[n - 1]));
      assert before + [Row(recs[n - 1])] == prev + Rows(recs);
    }
  }
}
